=== FILE: README.md ===
# Manifest builder for a rated speech dataset

This project models the pure logic of `extract_dataset_metadata.py`, the tool that writes
`metadata.jsonl` for a speech dataset. The tool works in two stages.

1. It reads three split tables: `train.csv`, `val.csv` and `test.csv`. Each has a `stimuli`
   column (a path) and a `mos` column (a mean opinion score). It folds them, in that order, into
   one lookup from a normalised path key to a (split, rating) pair.
2. It walks the data root. It keeps every regular file whose lower-cased suffix is an audio
   extension and whose root-relative path is a key of the lookup. For each such file it yields a
   record: `file_path`, `speaker_id` (the parent directory's name), `duration_ms` (frames × 1000 /
   sample rate), `split` and `rating`.

The model has six modules:

- `Results`: `Option` and `Result`.
- `Text`: Python's `str.strip`, `str.lower`, the backslash replacement, and joining path components.
- `PurePath`: the parts of `pathlib` the tool relies on. These are `name`, `suffix`,
  `parent.name`, and the string of a relative path on a POSIX or a Windows host.
- `SplitTables`: `read_split_tables`. Tables arrive as parsed rows. The split directory is a map
  from each split to its table, and a split whose file does not exist is not a key.
- `Duration`: `audio_duration_ms`, computed on the frame count and sample rate the header reports.
- `Manifest`: `AUDIO_EXTS`, `build_manifest` over a listing given as a sequence of entries, and
  `Run`, which composes the read with the build the way `main` does.

The main operations are each proved against a reference definition or an independent statement:

- The read is proved equal to a plain fold of assignments (`Assign` over `AllBindings`). That
  fold is proved last-write-wins.
- The build is proved compositional over listings (`BuildManifestAppend`), order-preserving, sound
  (every record comes from a matching path) and complete (every matching path before the first
  failed probe yields its record).
- The speaker is stated as the name of the file's parent in the path that starts at the root.
- Lower-casing is proved idempotent, and it keeps dots and letters as dots and letters.
- The key normalisation is proved idempotent and edge-space-free.
- The duration times the sample rate is proved to equal frames × 1000, and the duration is proved additive and monotone in the frame count.

## Model

| member | source | states |
|---|---|---|
| Text.Strip | extract_dataset_metadata/extract_dataset_metadata.py:77 | the stripped text has no whitespace at either end and is no longer than the input |
| Text.StripRemovesOnlyEdgeSpace | extract_dataset_metadata/extract_dataset_metadata.py:77 | strip returns a contiguous slice of the input, and everything it drops on either side is whitespace |
| Text.StripIdempotent | extract_dataset_metadata/extract_dataset_metadata.py:77 | stripping twice is stripping once |
| Text.ReplaceBackslashes | extract_dataset_metadata/extract_dataset_metadata.py:77 | same length, no backslash remains, each backslash becomes `/`, and every other character is kept in place |
| Text.ReplaceBackslashesIdempotent | extract_dataset_metadata/extract_dataset_metadata.py:92 | replacing twice is replacing once |
| Text.ReplaceBackslashesKeepsEdges | extract_dataset_metadata/extract_dataset_metadata.py:77 | the replacement neither adds nor removes whitespace at the ends, in both directions |
| Text.ReplaceBackslashesNoop | extract_dataset_metadata/extract_dataset_metadata.py:92 | a text without backslashes is left unchanged |
| Text.LowerChar | extract_dataset_metadata/extract_dataset_metadata.py:44 | a lowered character is never an upper-case ASCII letter; it is a lower-case letter exactly when the input is a letter of either case; it is a dot exactly when the input is; any other character, such as a digit, is kept |
| Text.LowerCharIdempotent | extract_dataset_metadata/extract_dataset_metadata.py:44 | lowering a lowered character changes nothing |
| Text.LowerCharFoldsCase | extract_dataset_metadata/extract_dataset_metadata.py:44 | each upper-case ASCII letter lowers to its lower-case partner, which lowers to itself |
| Text.Lower | extract_dataset_metadata/extract_dataset_metadata.py:44 | lower-casing keeps the length and lowers each character on its own |
| Text.LowerIdempotent | extract_dataset_metadata/extract_dataset_metadata.py:89 | lowering a lowered text changes nothing |
| Text.Join | extract_dataset_metadata/extract_dataset_metadata.py:92 | the string of a relative path: its components joined by the host separator, and `.` for a path with no components |
| Text.JoinEnds | extract_dataset_metadata/extract_dataset_metadata.py:92 | a joined path starts with its first component and ends with its last |
| PurePath.Suffix | extract_dataset_metadata/extract_dataset_metadata.py:89 | a non-empty suffix is a tail of the name that starts with its only dot and is shorter than the name; an empty suffix means no dot strictly inside the name is the last dot |
| PurePath.SuffixAt | extract_dataset_metadata/extract_dataset_metadata.py:89 | conversely, the last dot, when it is neither first nor last, starts the suffix |
| PurePath.HiddenNameHasNoSuffix | extract_dataset_metadata/extract_dataset_metadata.py:89 | a name like `.wav`, whose only dot is its first character, has no suffix |
| PurePath.ParentName | extract_dataset_metadata/extract_dataset_metadata.py:98 | the speaker is the final component of the parent of the file's path taken from the root directory (the root first, then the components), so a file directly under the root gets the root's own name |
| PurePath.RelativeKey | extract_dataset_metadata/extract_dataset_metadata.py:92 | the key of a listed path never contains a backslash |
| PurePath.RelativeKeyHostIndependent | extract_dataset_metadata/extract_dataset_metadata.py:92 | a path gives the same key whether the host separator is `/` or `\` |
| Duration.FramesToMs | extract_dataset_metadata/extract_dataset_metadata.py:48 | `frames * 1000 / sr` in exact real arithmetic: the duration times the rate is exactly frames × 1000, and it is never negative |
| Duration.OneSecond | extract_dataset_metadata/extract_dataset_metadata.py:48 | as many frames as the rate last 1000 ms |
| Duration.SixteenKilohertzSecond | extract_dataset_metadata/extract_dataset_metadata.py:48 | 16000 frames at 16000 Hz last 1000 ms |
| Duration.FramesToMsAdditive | extract_dataset_metadata/extract_dataset_metadata.py:48 | the durations of consecutive stretches at one rate add up |
| Duration.FramesToMsMonotonic | extract_dataset_metadata/extract_dataset_metadata.py:48 | more frames at one rate never last less |
| Duration.IsWav | extract_dataset_metadata/extract_dataset_metadata.py:44 | the WAV branch is taken exactly when the lower-cased suffix is `.wav`; such a name is longer than four characters and has a dot four characters from its end |
| Duration.HeaderDuration | extract_dataset_metadata/extract_dataset_metadata.py:45-48 | a header gives a duration exactly when it is readable with a positive rate, and the duration is then frames × 1000 / rate |
| Duration.ProbeDuration | extract_dataset_metadata/extract_dataset_metadata.py:43-58 | the probe succeeds exactly when the file is a WAV or the fallback reader is installed, and the header is readable with a positive rate; a non-WAV file without the fallback fails naming its suffix; an unsupported-format error only arises for non-WAV files |
| SplitTables.SplitName | extract_dataset_metadata/extract_dataset_metadata.py:66 | every split is named `train`, `val` or `test` |
| SplitTables.TableKey | extract_dataset_metadata/extract_dataset_metadata.py:77 | a table key has no backslash, no whitespace at either end, and is no longer than the cell |
| SplitTables.TableKeyIdempotent | extract_dataset_metadata/extract_dataset_metadata.py:77 | normalising a normalised key changes nothing |
| SplitTables.HasColumns | extract_dataset_metadata/extract_dataset_metadata.py:72 | the header check passes exactly when both `stimuli` and `mos` are column names; the header then has at least two columns |
| SplitTables.LoadRows | extract_dataset_metadata/extract_dataset_metadata.py:76-79 | the row loop adds at most one key per row and only normalised keys; it fails at the first row whose rating does not parse, naming that row and split |
| SplitTables.ReadFrom | extract_dataset_metadata/extract_dataset_metadata.py:66-79 | reading the remaining tables adds at most one key per row and only normalised keys |
| SplitTables.ReadSplitTables | extract_dataset_metadata/extract_dataset_metadata.py:64-80 | the lookup has at most as many keys as the tables have rows, and every key is normalised |
| SplitTables.AssignLastWriteWins | extract_dataset_metadata/extract_dataset_metadata.py:79 | after a sequence of assignments, a key is present exactly when it was before or is assigned; it holds its last assignment, or its earlier entry when never assigned |
| SplitTables.LoadRowsIsAssign | extract_dataset_metadata/extract_dataset_metadata.py:76-79 | the row loop succeeds exactly when every rating parses, and then equals the table's assignments performed in order |
| SplitTables.ReadFromIsAssign | extract_dataset_metadata/extract_dataset_metadata.py:66-79 | reading the remaining tables succeeds exactly when each is acceptable, and then performs their assignments in order |
| SplitTables.ReadFromRejected | extract_dataset_metadata/extract_dataset_metadata.py:67-78 | an unacceptable table aborts the read with an error naming that table and describing its fault |
| SplitTables.ReadFromFailsFirst | extract_dataset_metadata/extract_dataset_metadata.py:66-75 | a failure names the first unacceptable of the remaining tables; all tables before it are acceptable |
| SplitTables.ReadIsAssign | extract_dataset_metadata/extract_dataset_metadata.py:64-80 | the read succeeds exactly when all three tables exist, name both columns and have parseable ratings; the lookup is then the assignments of train rows, val rows and test rows, performed in order on an empty lookup |
| SplitTables.ReadFailsAtFirstFault | extract_dataset_metadata/extract_dataset_metadata.py:66-78 | a failed read names the first unacceptable table in the order train, val, test, and the error describes a real fault of it |
| SplitTables.ReadErrorDescribes | extract_dataset_metadata/extract_dataset_metadata.py:67-78 | every read error describes a real fault: a missing file, an empty file, a missing column, or the first row whose rating does not parse |
| SplitTables.MissingTrainAborts | extract_dataset_metadata/extract_dataset_metadata.py:66-69 | without `train.csv` the read fails with that error, whatever the other tables hold |
| SplitTables.ReadLastWriteWins | extract_dataset_metadata/extract_dataset_metadata.py:66-79 | the lookup's keys are exactly the normalised `stimuli` of all rows, and each key holds the split and rating of its last row in the order train rows, val rows, test rows |
| SplitTables.EntryComesFromItsTable | extract_dataset_metadata/extract_dataset_metadata.py:76-79 | each entry comes from a row of its own split's table whose normalised `stimuli` is the key and whose rating is the entry's rating |
| SplitTables.ExampleKey | extract_dataset_metadata/extract_dataset_metadata.py:77 | `a/1.wav` is already a normalised key |
| SplitTables.ExampleRead | extract_dataset_metadata/extract_dataset_metadata.py:64-80 | a train table holding the row `a/1.wav,4.5`, with empty val and test tables, gives the lookup {`a/1.wav` ↦ (train, 4.5)} |
| Manifest.IsAudioName | extract_dataset_metadata/extract_dataset_metadata.py:89 | the extension test: the lower-cased suffix is one of the five `AUDIO_EXTS`; the suffix is then a dot followed by three or four characters |
| Manifest.IsAudioNameEndsWithExt | extract_dataset_metadata/extract_dataset_metadata.py:37 | a name passes the extension test exactly when it ends, up to ASCII case, in one of the five audio extensions with at least one character before it |
| Manifest.ExtShape | extract_dataset_metadata/extract_dataset_metadata.py:37 | each audio extension is a dot followed by at least one non-dot character |
| Manifest.Selected | extract_dataset_metadata/extract_dataset_metadata.py:89 | the first filter: the path is a regular file whose name passes the extension test; a selected path has at least one component and a non-empty name |
| Manifest.Visit | extract_dataset_metadata/extract_dataset_metadata.py:89-107 | a path is skipped exactly when it fails the filter or its key is not in the lookup; it aborts exactly when kept and the probe fails, carrying the probe's own error; otherwise the record carries the path's key, the lookup's split name and rating for that key, the parent directory's name, and the header's duration |
| Manifest.Collect | extract_dataset_metadata/extract_dataset_metadata.py:86-107 | the generator yields no more records than outcomes, each from an emitting outcome; a failure comes from an aborting outcome, and there is none when nothing aborts |
| Manifest.BuildManifest | extract_dataset_metadata/extract_dataset_metadata.py:86-107 | no more records than listed paths; every record's path is a key of the lookup without backslashes, with that key's split and rating |
| Manifest.MatchedPathYields | extract_dataset_metadata/extract_dataset_metadata.py:93-107 | completeness: a path that passes the filter, is in the lookup and probes successfully yields its record right after the records of the paths before it, unless one of those aborted |
| Manifest.EveryMatchedPathYields | extract_dataset_metadata/extract_dataset_metadata.py:88-107 | when no probe fails, every path that passes the filter and is in the lookup has its record in the output |
| Manifest.CollectAppend | extract_dataset_metadata/extract_dataset_metadata.py:88-107 | the outcomes of two stretches of the listing yield the first stretch's records and then, unless it aborted, the second's |
| Manifest.BuildManifestAppend | extract_dataset_metadata/extract_dataset_metadata.py:88-107 | building over a concatenated listing is building over its first part, then over its second part unless the first aborted |
| Manifest.SkippedLeavesNoTrace | extract_dataset_metadata/extract_dataset_metadata.py:89-95 | a path that fails the filter or whose key is absent can be removed from the listing without changing the output |
| Manifest.AbortEndsRun | extract_dataset_metadata/extract_dataset_metadata.py:99 | a path whose probe fails ends the run: the records before it stay, and nothing after it is looked at |
| Manifest.CollectFollowsOrder | extract_dataset_metadata/extract_dataset_metadata.py:88-101 | each record comes from an emitting outcome, at strictly increasing positions |
| Manifest.RecordsFollowListing | extract_dataset_metadata/extract_dataset_metadata.py:88-107 | each record is the one its own listed path yields, and records keep the order of their paths |
| Manifest.EdgeSpaceKeyNeverMatches | extract_dataset_metadata/extract_dataset_metadata.py:92-95 | a path whose key starts or ends with whitespace is always skipped, since the table keys are stripped and the path key is not |
| Manifest.ExampleFileKey | extract_dataset_metadata/extract_dataset_metadata.py:92 | `a/1.wav` has key `a/1.wav` on either host |
| Manifest.ExampleFileProbe | extract_dataset_metadata/extract_dataset_metadata.py:43-48 | `1.wav` passes the filter, and a 16000-frame header at 16000 Hz probes to 1000 ms |
| Manifest.ExampleVisit | extract_dataset_metadata/extract_dataset_metadata.py:89-107 | that file, looked up in {`a/1.wav` ↦ (train, 4.5)}, yields the record (`a/1.wav`, `a`, 1000, `train`, 4.5) |
| Manifest.ExampleBuild | extract_dataset_metadata/extract_dataset_metadata.py:86-107 | the listing holding only that file yields exactly that record and no failure |
| Manifest.SingleEmit | extract_dataset_metadata/extract_dataset_metadata.py:88-107 | a listing of one path that passes the filter, is in the lookup and probes successfully yields exactly that path's record and no failure |
| Manifest.ExampleListing | extract_dataset_metadata/extract_dataset_metadata.py:88-95 | the walk's listing of the example tree, the directory `a` and then `a/1.wav`, yields exactly the one record: the directory is skipped |
| Manifest.OneRowExample | extract_dataset_metadata/extract_dataset_metadata.py:121-128 | end to end, those tables and the listing of that tree (the directory `a`, then `a/1.wav`) give exactly one record, for `a/1.wav`, with speaker `a`, duration 1000 ms, split `train` and rating 4.5 |
| Manifest.Run | extract_dataset_metadata/extract_dataset_metadata.py:121-128 | the run fails before any record exactly when some table is unacceptable, and the error then describes the fault; otherwise every record has a split name and a normalised path |
| Manifest.RecordTracesToRow | extract_dataset_metadata/extract_dataset_metadata.py:76-107 | every record traces back to a row of its own split's table whose normalised `stimuli` is the record's path and whose rating is the record's rating |

## Left out

- CSV tokenisation by `csv.DictReader`, such as quoting, escaping and short rows, is not modelled. Tables arrive as a header and rows of cells. A short row, whose missing `stimuli` cell is `None` so that `.strip()` raises, is outside the model.
- Parsing `mos` with `float()` is not modelled. A row's rating is `Some(value)` or `None`, where `None` stands for a text `float()` rejects. The read then fails with `BadRating`.
- Ratings that `float()` accepts but that are not real numbers, such as `nan`, `inf` or an overflowing `1e400`, are not modelled: a rating is a real number. Such a row is outside the model, neither `Some(value)` nor a rejected text.
- An empty table file has no header, so `set(None)` raises a `TypeError` rather than the tool's own `ValueError`. The model reports it as a separate error, `NoHeader`.
- Reading audio headers with `wave` and `soundfile` is I/O. A file's header is an input: a frame count and a rate, or unreadable.
  - A header reporting a rate of 0 is an error, `ZeroSampleRate`, because the division fails or the reader rejects it.
  - The message text of the `RuntimeError` raised without `soundfile` is not modelled. Only the suffix it names is kept.
- Whether `soundfile` is installed is an input flag of the run.
- `root.rglob("*")`, `resolve()` and `is_file()` touch the filesystem. The listing is an input sequence in enumeration order. Each entry holds its components relative to the root and an is-regular-file flag.
- The resolved root's name is an input, for files directly under the root.
- The host's path separator is an input. The key is proved not to depend on it.
- The stderr warning for a skipped path and the final count are not modelled.
- `main`'s argument parsing, directory creation, JSON serialisation and file writing are not modelled. `Run` keeps only the order of events: a failed read produces no records, and a failed probe keeps the records yielded before it.
- A split directory entry named `train.csv` that is a directory, not a file, is not modelled. Each split's table is either present or absent.
- A table that exists but cannot be opened or decoded, for example because it is not readable (`PermissionError`) or is not valid UTF-8 (`UnicodeDecodeError`), is not modelled. Such a table aborts the read at line 70 of `extract_dataset_metadata.py` with the library's own exception, while the model gives every present table a header and rows.
- Duration.FramesToMs: the duration is exact real arithmetic, so IEEE double rounding of `frames * 1000.0 / sr` is not modelled.
- Manifest.Collect: its contract states soundness only: each record comes from an emitting outcome. Completeness, that every emitting path before the first abort yields its record, is stated by `Manifest.MatchedPathYields` and `Manifest.EveryMatchedPathYields`.
- Text.LowerChar: only ASCII letters are lower-cased; the next line says why this is exact for the extension test.
- Text.Lower: only ASCII letters are lower-cased. This is exact for the extension test. The only non-ASCII characters whose Python lower-casing gives an ASCII letter are U+0130 (to `i` plus a combining dot, which leaves a non-ASCII character) and U+212A (to `k`). None of the five audio extensions contains `i` or `k`, so neither character can turn a suffix into an audio extension or stop one from being one.
- PurePath.Suffix: this follows the rule that a trailing dot gives no suffix. Newer Python versions return `"."` for a name ending in a dot, but `"."` is not an audio extension, so the test is unaffected.
- The key of a listed path is not stripped, only the table's `stimuli` cell is. The model follows the code here, and `Manifest.EdgeSpaceKeyNeverMatches` states the consequence.
- `make_hf_dataset.py` is not part of this model: it consists of dataframe and dataset-library calls and an upload.

=== FILE: duration.dfy ===
/** `audio_duration_ms`: a file's duration in milliseconds, from the frame count
    and sample rate its header reports. */
module Duration {
  import opened Results
  import opened Text
  import opened PurePath

  /** What reading a file's header yields: its frame count and sample rate, or
      nothing when the reader rejects the file. */
  datatype AudioHeader = Readable(frames: nat, rate: nat) | Unreadable

  /** Why the probe aborts the run. */
  datatype ProbeError =
    | Unsupported(suffix: string)  // not WAV and the fallback reader is not installed
    | CannotRead                   // the header reader rejects the file
    | ZeroSampleRate               // the header reports a rate of 0, so the division fails

  /** `frames * 1000 / sr` in exact arithmetic: the duration that, at `rate`
      frames per second, covers `frames` frames. */
  function FramesToMs(frames: nat, rate: nat): (ms: real)
    requires rate > 0
    ensures ms * rate as real == frames as real * 1000.0
    ensures ms >= 0.0
  {
    frames as real * 1000.0 / rate as real
  }

  /** As many frames as the rate is one second. */
  lemma OneSecond(rate: nat)
    requires rate > 0
    ensures FramesToMs(rate, rate) == 1000.0
  {
  }

  /** 16000 frames at 16000 Hz last 1000 ms. */
  lemma SixteenKilohertzSecond()
    ensures FramesToMs(16000, 16000) == 1000.0
  {
  }

  /** Durations of consecutive stretches at one rate add up. */
  lemma FramesToMsAdditive(a: nat, b: nat, rate: nat)
    requires rate > 0
    ensures FramesToMs(a + b, rate) == FramesToMs(a, rate) + FramesToMs(b, rate)
  {
    var r := rate as real;
    var x, y, z := FramesToMs(a, rate), FramesToMs(b, rate), FramesToMs(a + b, rate);
    assert (x + y) * r == x * r + y * r;
    CancelRate(x + y, z, r);
  }

  lemma CancelRate(p: real, q: real, r: real)
    requires r > 0.0 && p * r == q * r
    ensures p == q
  {
  }

  /** More frames at one rate never last less. */
  lemma FramesToMsMonotonic(a: nat, b: nat, rate: nat)
    requires rate > 0 && a <= b
    ensures FramesToMs(a, rate) <= FramesToMs(b, rate)
  {
    FramesToMsAdditive(a, b - a, rate);
  }

  /** The WAV branch: the file's lower-cased suffix is exactly ".wav". Such a
      name is four characters or longer with a dot four from its end, since a
      suffix needs a character before its dot. */
  predicate IsWav(name: string): (b: bool)
    ensures b ==> |name| > 4 && name[|name| - 4] == '.'
  {
    Lower(Suffix(name)) == ".wav"
  }

  function HeaderDuration(h: AudioHeader): (r: Result<real, ProbeError>)
    ensures r.Ok? <==> h.Readable? && h.rate > 0
    ensures r.Ok? ==> r.value == FramesToMs(h.frames, h.rate)
  {
    match h
    case Unreadable => Err(CannotRead)
    case Readable(frames, rate) =>
      if rate == 0 then Err(ZeroSampleRate) else Ok(FramesToMs(frames, rate))
  }

  /** `audio_duration_ms` of a file named `name` whose header is `h`: a WAV file is
      read with the built-in reader; any other file needs the fallback reader, and
      without it the probe fails naming the file's suffix as written. */
  function ProbeDuration(name: string, h: AudioHeader, fallbackInstalled: bool): (r: Result<real, ProbeError>)
    ensures r.Ok? <==> (IsWav(name) || fallbackInstalled) && h.Readable? && h.rate > 0
    ensures r.Ok? ==> r.value == FramesToMs(h.frames, h.rate)
    ensures !IsWav(name) && !fallbackInstalled ==> r == Err(Unsupported(Suffix(name)))
    ensures r.Err? && r.error.Unsupported? ==> !IsWav(name)
  {
    if IsWav(name) then HeaderDuration(h)
    else if !fallbackInstalled then Err(Unsupported(Suffix(name)))
    else HeaderDuration(h)
  }
}

=== FILE: manifest.dfy ===
/** `build_manifest`: every regular audio file under the data root whose path key
    is in the split lookup yields one record, in enumeration order; a probe
    failure aborts the run. */
module Manifest {
  import opened Results
  import opened Text
  import opened PurePath
  import opened SplitTables
  import opened Duration

  /** `AUDIO_EXTS`. */
  const AudioExts: set<string> := {".wav", ".flac", ".mp3", ".m4a", ".ogg"}

  /** The extension test: the lower-cased suffix of the file's name is an audio
      extension. The suffix is then a dot and three or four more characters. */
  predicate IsAudioName(name: string): (b: bool)
    ensures b ==> 4 <= |Suffix(name)| <= 5 && Suffix(name)[0] == '.'
  {
    Lower(Suffix(name)) in AudioExts
  }

  /** One path the recursive listing of the data root yields: its components
      relative to the root, whether it is a regular file, and what its header
      holds. */
  datatype FileEntry = FileEntry(parts: seq<string>, isFile: bool, header: AudioHeader)

  /** What the run depends on besides its inputs: the host's path separator, the
      name of the resolved data root, and whether the fallback audio reader is
      installed. */
  datatype Env = Env(host: Host, rootName: string, fallbackInstalled: bool)

  /** One manifest line: `file_path`, `speaker_id`, `duration_ms`, `split`, `rating`. */
  datatype Record = Record(filePath: string, speakerId: string, durationMs: real, split: string, rating: real)

  /** What one listed path contributes. */
  datatype Step = Skip | Emit(record: Record) | Abort(error: ProbeError)

  /** The records yielded so far, and the probe failure that ended the run, if any. */
  datatype Emitted = Emitted(records: seq<Record>, failure: Option<ProbeError>)

  /** The path passes the first filter: audio extension and regular file. A
      selected path is never the root itself, whose name is empty. */
  predicate Selected(f: FileEntry): (b: bool)
    ensures b ==> |f.parts| >= 1 && Name(f.parts) != ""
  {
    IsAudioName(Name(f.parts)) && f.isFile
  }

  function Key(env: Env, f: FileEntry): string {
    RelativeKey(env.host, f.parts)
  }

  /** The body of the loop for one path: filter, look up, then build the record. */
  function Visit(env: Env, m: SplitMap, f: FileEntry): (s: Step)
    ensures s.Skip? <==> !Selected(f) || Key(env, f) !in m
    ensures s.Abort? <==>
              && Selected(f) && Key(env, f) in m
              && ProbeDuration(Name(f.parts), f.header, env.fallbackInstalled).Err?
    ensures s.Abort? ==> s.error == ProbeDuration(Name(f.parts), f.header, env.fallbackInstalled).error
    ensures s.Emit? ==>
              && Selected(f) && |f.parts| >= 1
              && s.record.filePath == Key(env, f)
              && s.record.filePath in m
              && s.record.split == SplitName(m[s.record.filePath].split)
              && s.record.rating == m[s.record.filePath].rating
              && s.record.speakerId == ParentName(env.rootName, f.parts)
              && f.header.Readable? && f.header.rate > 0
              && s.record.durationMs == FramesToMs(f.header.frames, f.header.rate)
  {
    if !Selected(f) then Skip
    else
      var k := Key(env, f);
      if k !in m then Skip
      else
        var entry := m[k];
        var speaker := ParentName(env.rootName, f.parts);
        match ProbeDuration(Name(f.parts), f.header, env.fallbackInstalled)
        case Err(e) => Abort(e)
        case Ok(ms) => Emit(Record(k, speaker, ms, SplitName(entry.split), entry.rating))
  }

  /** The generator's output for the outcomes of the listed paths, in order: the
      records of the emitting paths, up to the first path whose probe fails. */
  function Collect(steps: seq<Step>): (out: Emitted)
    ensures |out.records| <= |steps|
    ensures forall rec :: rec in out.records ==> Emit(rec) in steps
    ensures out.failure.Some? ==> Abort(out.failure.value) in steps
    ensures (forall i :: 0 <= i < |steps| ==> !steps[i].Abort?) ==> out.failure.None?
    decreases |steps|
  {
    if |steps| == 0 then Emitted([], None)
    else match steps[0]
      case Skip => Collect(steps[1..])
      case Abort(e) => Emitted([], Some(e))
      case Emit(rec) =>
        var rest := Collect(steps[1..]);
        Emitted([rec] + rest.records, rest.failure)
  }

  /** The outcome of each listed path, in listing order. */
  function Steps(env: Env, m: SplitMap, files: seq<FileEntry>): (steps: seq<Step>)
    ensures |steps| == |files|
    ensures forall i :: 0 <= i < |files| ==> steps[i] == Visit(env, m, files[i])
  {
    seq(|files|, i requires 0 <= i < |files| => Visit(env, m, files[i]))
  }

  /** `build_manifest` over the listed paths. Every record is for a path whose key
      is in the lookup, carries that key's split and rating, and its path has no
      backslash; there are never more records than paths. */
  function BuildManifest(env: Env, m: SplitMap, files: seq<FileEntry>): (out: Emitted)
    ensures |out.records| <= |files|
    ensures forall rec :: rec in out.records ==>
              && rec.filePath in m
              && rec.split == SplitName(m[rec.filePath].split)
              && rec.rating == m[rec.filePath].rating
              && '\\' !in rec.filePath
  {
    Collect(Steps(env, m, files))
  }

  /** The output of a first stretch `x` followed by a second `y`; `y` only counts
      when `x` did not abort. */
  function Then(x: Emitted, y: Emitted): Emitted {
    if x.failure.Some? then x else Emitted(x.records + y.records, y.failure)
  }

  lemma {:induction false} CollectAppend(a: seq<Step>, b: seq<Step>)
    ensures Collect(a + b) == Then(Collect(a), Collect(b))
    decreases |a|
  {
    if |a| == 0 {
      assert a + b == b;
    } else {
      var ab := a + b;
      assert ab[0] == a[0];
      assert ab[1..] == a[1..] + b;
      CollectAppend(a[1..], b);
      match a[0]
      case Skip =>
        assert Collect(ab) == Collect(ab[1..]);
      case Abort(e) =>
        assert Collect(ab) == Collect(a);
      case Emit(rec) =>
        var x, y := Collect(a[1..]), Collect(b);
        assert Collect(ab) == Emitted([rec] + Collect(ab[1..]).records, Collect(ab[1..]).failure);
        if x.failure.None? {
          assert [rec] + (x.records + y.records) == ([rec] + x.records) + y.records;
        }
    }
  }

  lemma StepsAppend(env: Env, m: SplitMap, a: seq<FileEntry>, b: seq<FileEntry>)
    ensures Steps(env, m, a + b) == Steps(env, m, a) + Steps(env, m, b)
  {
  }

  /** The manifest of a listing is the manifest of its first part followed by that
      of its second part, unless the first part aborted: records come out in the
      order of their files. */
  lemma BuildManifestAppend(env: Env, m: SplitMap, a: seq<FileEntry>, b: seq<FileEntry>)
    ensures BuildManifest(env, m, a + b) == Then(BuildManifest(env, m, a), BuildManifest(env, m, b))
  {
    StepsAppend(env, m, a, b);
    CollectAppend(Steps(env, m, a), Steps(env, m, b));
  }

  lemma StepsAround(env: Env, m: SplitMap, a: seq<FileEntry>, f: FileEntry, b: seq<FileEntry>)
    ensures Steps(env, m, a + [f] + b) == Steps(env, m, a) + [Visit(env, m, f)] + Steps(env, m, b)
  {
  }

  lemma CollectDropsSkip(a: seq<Step>, b: seq<Step>)
    ensures Collect(a + [Skip] + b) == Collect(a + b)
  {
    CollectAppend(a + [Skip], b);
    CollectAppend(a, [Skip]);
    CollectAppend(a, b);
    assert [Skip][1..] == [];
    assert Collect([Skip]) == Emitted([], None);
    assert Collect(a).records + [] == Collect(a).records;
  }

  lemma CollectStopsAtAbort(a: seq<Step>, e: ProbeError, b: seq<Step>)
    ensures Collect(a + [Abort(e)] + b)
            == if Collect(a).failure.Some? then Collect(a) else Emitted(Collect(a).records, Some(e))
  {
    CollectAppend(a + [Abort(e)], b);
    CollectAppend(a, [Abort(e)]);
    assert Collect([Abort(e)]) == Emitted([], Some(e));
    assert Collect(a).records + [] == Collect(a).records;
  }

  /** A path the filter or the lookup rejects contributes nothing and does not stop
      the run: removing it from the listing leaves the manifest unchanged. */
  lemma SkippedLeavesNoTrace(env: Env, m: SplitMap, a: seq<FileEntry>, f: FileEntry, b: seq<FileEntry>)
    requires !Selected(f) || Key(env, f) !in m
    ensures BuildManifest(env, m, a + [f] + b) == BuildManifest(env, m, a + b)
  {
    assert Visit(env, m, f) == Skip;
    StepsAround(env, m, a, f, b);
    StepsAppend(env, m, a, b);
    CollectDropsSkip(Steps(env, m, a), Steps(env, m, b));
  }

  /** Fail fast: a path whose probe fails ends the run there; the records of the
      paths before it stay, and nothing after it is looked at. */
  lemma AbortEndsRun(env: Env, m: SplitMap, a: seq<FileEntry>, f: FileEntry, b: seq<FileEntry>)
    requires Visit(env, m, f).Abort?
    ensures var before := BuildManifest(env, m, a);
            BuildManifest(env, m, a + [f] + b)
            == if before.failure.Some? then before
               else Emitted(before.records, Some(Visit(env, m, f).error))
  {
    StepsAround(env, m, a, f, b);
    CollectStopsAtAbort(Steps(env, m, a), Visit(env, m, f).error, Steps(env, m, b));
  }

  /** Completeness: a path that passes the filter, is in the lookup and probes
      successfully yields its record right after the records of the paths before
      it, unless one of those aborted. */
  lemma MatchedPathYields(env: Env, m: SplitMap, a: seq<FileEntry>, f: FileEntry, b: seq<FileEntry>)
    requires Visit(env, m, f).Emit?
    requires BuildManifest(env, m, a).failure.None?
    ensures var before := BuildManifest(env, m, a).records;
            var out := BuildManifest(env, m, a + [f] + b).records;
            |before| < |out| && out[..|before| + 1] == before + [Visit(env, m, f).record]
    ensures Visit(env, m, f).record in BuildManifest(env, m, a + [f] + b).records
  {
    var rec := Visit(env, m, f).record;
    var before := BuildManifest(env, m, a).records;
    BuildManifestAppend(env, m, a, [f]);
    SingleEmit(env, m, f);
    var x := BuildManifest(env, m, a + [f]);
    assert x == Emitted(before + [rec], None);
    BuildManifestAppend(env, m, a + [f], b);
    var out := BuildManifest(env, m, a + [f] + b).records;
    assert out == before + [rec] + BuildManifest(env, m, b).records;
    assert out[..|before| + 1] == before + [rec];
    assert out[|before|] == rec;
  }

  /** When no path's probe fails, every path that passes the filter and is in the
      lookup yields its record. */
  lemma EveryMatchedPathYields(env: Env, m: SplitMap, files: seq<FileEntry>, i: nat)
    requires BuildManifest(env, m, files).failure.None?
    requires i < |files| && Visit(env, m, files[i]).Emit?
    ensures Visit(env, m, files[i]).record in BuildManifest(env, m, files).records
  {
    SplitAround(files, i);
    MatchedPathAmong(env, m, files[..i], files[i], files[i + 1..]);
  }

  lemma MatchedPathAmong(env: Env, m: SplitMap, a: seq<FileEntry>, f: FileEntry, b: seq<FileEntry>)
    requires Visit(env, m, f).Emit?
    requires BuildManifest(env, m, a + [f] + b).failure.None?
    ensures Visit(env, m, f).record in BuildManifest(env, m, a + [f] + b).records
  {
    PrefixDidNotAbort(env, m, a + [f], b);
    PrefixDidNotAbort(env, m, a, [f]);
    MatchedPathYields(env, m, a, f, b);
  }

  /** A sequence is the part before position `i`, the element there, and the part after. */
  lemma SplitAround<T>(s: seq<T>, i: nat)
    requires i < |s|
    ensures s == s[..i] + [s[i]] + s[i + 1..]
  {
  }

  /** A listing whose build did not abort has no aborting prefix. */
  lemma PrefixDidNotAbort(env: Env, m: SplitMap, a: seq<FileEntry>, b: seq<FileEntry>)
    requires BuildManifest(env, m, a + b).failure.None?
    ensures BuildManifest(env, m, a).failure.None?
  {
    BuildManifestAppend(env, m, a, b);
  }

  /** Positions of records in `steps[1..]` become positions in `steps`, none of
      them 0. */
  lemma ShiftPositions(steps: seq<Step>, recs: seq<Record>, p: seq<nat>) returns (q: seq<nat>)
    requires |steps| > 0 && |p| == |recs|
    requires forall j :: 0 <= j < |p| ==> p[j] < |steps[1..]| && steps[1..][p[j]] == Emit(recs[j])
    requires forall j, l :: 0 <= j < l < |p| ==> p[j] < p[l]
    ensures |q| == |recs|
    ensures forall j :: 0 <= j < |q| ==> 0 < q[j] < |steps| && steps[q[j]] == Emit(recs[j])
    ensures forall j, l :: 0 <= j < l < |q| ==> q[j] < q[l]
  {
    q := seq(|p|, j requires 0 <= j < |p| => p[j] + 1);
    forall j | 0 <= j < |q|
      ensures steps[q[j]] == Emit(recs[j])
    {
      assert steps[q[j]] == steps[1..][p[j]];
    }
  }

  /** A record emitted by the first outcome goes in front of the positions of the
      records after it. */
  lemma PrependPosition(steps: seq<Step>, rec: Record, recs: seq<Record>, q: seq<nat>) returns (pos: seq<nat>)
    requires |steps| > 0 && steps[0] == Emit(rec) && |q| == |recs|
    requires forall j :: 0 <= j < |q| ==> 0 < q[j] < |steps| && steps[q[j]] == Emit(recs[j])
    requires forall j, l :: 0 <= j < l < |q| ==> q[j] < q[l]
    ensures |pos| == |[rec] + recs|
    ensures forall j :: 0 <= j < |pos| ==> pos[j] < |steps| && steps[pos[j]] == Emit(([rec] + recs)[j])
    ensures forall j, l :: 0 <= j < l < |pos| ==> pos[j] < pos[l]
  {
    pos := [0] + q;
    assert forall j :: 0 < j < |pos| ==> pos[j] == q[j - 1] && ([rec] + recs)[j] == recs[j - 1];
  }

  /** Records keep the order of the outcomes that emitted them: `pos` gives, for
      each record, the strictly increasing position of the outcome that emitted it. */
  lemma {:induction false} CollectFollowsOrder(steps: seq<Step>) returns (pos: seq<nat>)
    ensures |pos| == |Collect(steps).records|
    ensures forall j :: 0 <= j < |pos| ==> pos[j] < |steps| && steps[pos[j]] == Emit(Collect(steps).records[j])
    ensures forall j, l :: 0 <= j < l < |pos| ==> pos[j] < pos[l]
    decreases |steps|
  {
    if |steps| == 0 {
      pos := [];
    } else {
      var p := CollectFollowsOrder(steps[1..]);
      var restRecs := Collect(steps[1..]).records;
      var q := ShiftPositions(steps, restRecs, p);
      match steps[0]
      case Skip =>
        assert Collect(steps).records == restRecs;
        pos := q;
      case Abort(_) =>
        pos := [];
      case Emit(rec) =>
        assert Collect(steps).records == [rec] + restRecs;
        pos := PrependPosition(steps, rec, restRecs, q);
    }
  }

  /** Each record comes from its own listed path, and records keep the order of
      their paths: `pos` gives, for each record, the strictly increasing position
      in the listing of the path that yielded it. */
  lemma RecordsFollowListing(env: Env, m: SplitMap, files: seq<FileEntry>) returns (pos: seq<nat>)
    ensures var recs := BuildManifest(env, m, files).records;
            && |pos| == |recs|
            && (forall j :: 0 <= j < |pos| ==> pos[j] < |files| && Visit(env, m, files[pos[j]]) == Emit(recs[j]))
            && (forall j, l :: 0 <= j < l < |pos| ==> pos[j] < pos[l])
  {
    pos := CollectFollowsOrder(Steps(env, m, files));
  }

  /** A path whose key has whitespace at either end can never match a lookup the
      read built, since those keys are stripped: it is always skipped. */
  lemma EdgeSpaceKeyNeverMatches(env: Env, dir: SplitDir, f: FileEntry)
    requires ReadSplitTables(dir).Ok?
    requires !NoEdgeSpace(Key(env, f))
    ensures Visit(env, ReadSplitTables(dir).value, f) == Skip
  {
  }

  /** The extension test as a statement about the name itself: the name ends, up to
      ASCII case, in one of the audio extensions, with at least one character
      before it. So ".wav" is not an audio name, while "x.WAV" and "..wav" are. */
  lemma IsAudioNameEndsWithExt(name: string)
    ensures IsAudioName(name) <==>
              exists e :: e in AudioExts && |e| < |name| && Lower(name[|name| - |e|..]) == e
  {
    if IsAudioName(name) {
      var e := Lower(Suffix(name));
      assert e in AudioExts && |e| < |name| && Lower(name[|name| - |e|..]) == e;
    }
    if e :| e in AudioExts && |e| < |name| && Lower(name[|name| - |e|..]) == e {
      EndsWithExtIsAudio(name, e);
    }
  }

  /** A name ending, up to ASCII case, in an audio extension after at least one
      other character has that ending as its suffix. */
  lemma EndsWithExtIsAudio(name: string, e: string)
    requires e in AudioExts && |e| < |name| && Lower(name[|name| - |e|..]) == e
    ensures Suffix(name) == name[|name| - |e|..]
  {
    var p := |name| - |e|;
    ExtShape(e);
    assert LowerChar(name[p]) == e[0];
    forall j | p < j < |name| ensures name[j] != '.' {
      assert LowerChar(name[j]) == e[j - p];
    }
    SuffixAt(name, p);
  }

  /** Each audio extension is a dot followed by at least one non-dot character. */
  lemma ExtShape(e: string)
    requires e in AudioExts
    ensures |e| >= 2 && e[0] == '.' && forall j :: 0 < j < |e| ==> e[j] != '.'
  {
  }

  lemma ExampleSuffix()
    ensures Suffix("1.wav") == ".wav"
  {
    var name := "1.wav";
    assert name[1] == '.' && forall j :: 1 < j < |name| ==> name[j] != '.';
  }

  /** The example file's key is "a/1.wav" on either host. */
  lemma ExampleFileKey(env: Env)
    ensures Key(env, FileEntry(["a", "1.wav"], true, Readable(16000, 16000))) == "a/1.wav"
  {
    ExampleJoin();
    assert '\\' !in "a/1.wav";
    KeyOfPlainPath(env, FileEntry(["a", "1.wav"], true, Readable(16000, 16000)), "a/1.wav");
  }

  /** A path whose POSIX spelling has no backslash has that spelling as its key,
      on either host. */
  lemma KeyOfPlainPath(env: Env, f: FileEntry, s: string)
    requires Join(f.parts, '/') == s && '\\' !in s
    ensures Key(env, f) == s
  {
    RelativeKeyHostIndependent(f.parts);
    ReplaceBackslashesNoop(s);
    match env.host {
      case Posix =>
      case Windows =>
    }
  }

  lemma ExampleJoin()
    ensures Join(["a", "1.wav"], '/') == "a/1.wav"
  {
    var parts := ["a", "1.wav"];
    assert parts[1..] == ["1.wav"];
  }

  /** The example file is selected and probes to one second. */
  lemma ExampleFileProbe(env: Env)
    ensures Selected(FileEntry(["a", "1.wav"], true, Readable(16000, 16000)))
    ensures ProbeDuration("1.wav", Readable(16000, 16000), env.fallbackInstalled) == Ok(1000.0)
  {
    ExampleSuffix();
    assert Lower(".wav") == ".wav";
    assert Name(["a", "1.wav"]) == "1.wav";
    SixteenKilohertzSecond();
    assert IsWav("1.wav");
  }

  lemma ExampleVisit(env: Env)
    ensures Visit(env, map["a/1.wav" := Entry(Train, 4.5)], FileEntry(["a", "1.wav"], true, Readable(16000, 16000)))
            == Emit(Record("a/1.wav", "a", 1000.0, "train", 4.5))
  {
    var f := FileEntry(["a", "1.wav"], true, Readable(16000, 16000));
    var m := map["a/1.wav" := Entry(Train, 4.5)];
    ExampleFileKey(env);
    ExampleFileProbe(env);
    assert Name(f.parts) == "1.wav";
    assert ParentName(env.rootName, f.parts) == "a";
    assert Key(env, f) in m;
  }

  lemma ExampleBuild(env: Env)
    ensures BuildManifest(env, map["a/1.wav" := Entry(Train, 4.5)],
                          [FileEntry(["a", "1.wav"], true, Readable(16000, 16000))])
            == Emitted([Record("a/1.wav", "a", 1000.0, "train", 4.5)], None)
  {
    var f := FileEntry(["a", "1.wav"], true, Readable(16000, 16000));
    var m := map["a/1.wav" := Entry(Train, 4.5)];
    var rec := Record("a/1.wav", "a", 1000.0, "train", 4.5);
    ExampleVisit(env);
    SingleEmit(env, m, f);
  }

  /** A listing of one path that emits yields exactly that path's record. */
  lemma SingleEmit(env: Env, m: SplitMap, f: FileEntry)
    requires Visit(env, m, f).Emit?
    ensures BuildManifest(env, m, [f]) == Emitted([Visit(env, m, f).record], None)
  {
    var steps := Steps(env, m, [f]);
    assert steps == [Visit(env, m, f)];
    CollectSingle(steps[0]);
  }

  lemma CollectSingle(s: Step)
    requires s.Emit?
    ensures Collect([s]) == Emitted([s.record], None)
  {
    assert [s][1..] == [];
  }

  /** The listing the recursive walk yields for the example tree: the directory
      `a`, then the file `a/1.wav`. The directory is skipped, so the manifest is
      that of the file alone. */
  lemma ExampleListing(env: Env)
    ensures BuildManifest(env, map["a/1.wav" := Entry(Train, 4.5)],
                          [FileEntry(["a"], false, Unreadable), FileEntry(["a", "1.wav"], true, Readable(16000, 16000))])
            == Emitted([Record("a/1.wav", "a", 1000.0, "train", 4.5)], None)
  {
    var d := FileEntry(["a"], false, Unreadable);
    var f := FileEntry(["a", "1.wav"], true, Readable(16000, 16000));
    var m := map["a/1.wav" := Entry(Train, 4.5)];
    SkippedLeavesNoTrace(env, m, [], d, [f]);
    assert [] + [d] + [f] == [d, f];
    assert [] + [f] == [f];
    ExampleBuild(env);
  }

  /** The worked example: the train table holds the single row `a/1.wav,4.5`, the
      val and test tables hold no rows, and the tree holds the directory `a` with
      the one-second 16 kHz WAV `a/1.wav` in it. The run yields exactly one
      record, for that file, with speaker "a", duration 1000 ms, split "train"
      and rating 4.5. */
  lemma OneRowExample(env: Env, dir: SplitDir)
    requires AllAccepted(dir)
    requires dir[Train].rows == [Row("a/1.wav", Some(4.5))]
    requires dir[Val].rows == [] && dir[Test].rows == []
    ensures Run(dir, env, [FileEntry(["a"], false, Unreadable), FileEntry(["a", "1.wav"], true, Readable(16000, 16000))])
            == Built(Emitted([Record("a/1.wav", "a", 1000.0, "train", 4.5)], None))
  {
    ExampleRead(dir);
    ExampleListing(env);
  }

  /** What a run of the tool produces: a failed table read before any record, or
      the records the builder yields from the lookup. */
  datatype RunResult = ReadFailed(error: ReadError) | Built(out: Emitted)

  /** `main` without its I/O: read the tables, then build the manifest from them.
      The run fails before any record exactly when some table is unacceptable, and
      every record names a split and carries a normalised path. */
  function Run(dir: SplitDir, env: Env, files: seq<FileEntry>): (r: RunResult)
    ensures r.ReadFailed? <==> !AllAccepted(dir)
    ensures r.ReadFailed? ==> Describes(dir, r.error)
    ensures r.Built? ==> forall rec :: rec in r.out.records ==>
              rec.split in {"train", "val", "test"} && IsNormalKey(rec.filePath)
  {
    ReadIsAssign(dir);
    ReadErrorDescribes(dir);
    match ReadSplitTables(dir)
    case Err(e) => ReadFailed(e)
    case Ok(m) => Built(BuildManifest(env, m, files))
  }

  /** End to end: every record of a run traces back to a row of the table of its
      own split, whose normalised `stimuli` is the record's path and whose rating
      is the record's rating. */
  lemma RecordTracesToRow(dir: SplitDir, env: Env, files: seq<FileEntry>, rec: Record)
    requires Run(dir, env, files).Built? && rec in Run(dir, env, files).out.records
    ensures exists s :: SplitName(s) == rec.split && s in dir
              && exists j :: 0 <= j < |dir[s].rows|
                   && TableKey(dir[s].rows[j].stimuli) == rec.filePath
                   && dir[s].rows[j].mos == Some(rec.rating)
  {
    var m := ReadSplitTables(dir).value;
    assert rec in BuildManifest(env, m, files).records;
    EntryComesFromItsTable(dir, rec.filePath);
    var s := m[rec.filePath].split;
    assert SplitName(s) == rec.split;
  }
}

=== FILE: pure_path.dfy ===
/** The parts of `pathlib` the manifest builder uses, on a path given as its
    sequence of components relative to the data root. */
module PurePath {
  import opened Text

  /** The operating system decides the separator `str()` prints between components. */
  datatype Host = Posix | Windows

  function Separator(h: Host): char {
    match h
    case Posix => '/'
    case Windows => '\\'
  }

  /** `PurePath.name`: the final component ("" for the empty path). */
  function Name(parts: seq<string>): string {
    if |parts| == 0 then "" else parts[|parts| - 1]
  }

  /** `str.rfind(c)`: the index of the last `c` in `s`, or -1 when there is none. */
  function RFind(s: string, c: char): (i: int)
    ensures -1 <= i < |s|
    ensures 0 <= i ==> s[i] == c
    ensures forall j :: i < j < |s| ==> s[j] != c
  {
    if |s| == 0 then -1
    else if s[|s| - 1] == c then |s| - 1
    else RFind(s[..|s| - 1], c)
  }

  /** `PurePath.suffix` of a final component: the text from its last dot, provided
      that dot is neither the first nor the last character; otherwise "". So
      ".wav" has no suffix and "a..wav" has suffix ".wav". */
  function Suffix(name: string): (r: string)
    ensures r != "" ==> 2 <= |r| < |name| && r == name[|name| - |r|..]
    ensures r != "" ==> r[0] == '.' && forall j :: 0 < j < |r| ==> r[j] != '.'
    ensures r == "" ==> forall p :: 0 < p < |name| - 1 && name[p] == '.' ==>
                          exists q :: p < q < |name| && name[q] == '.'
  {
    var i := RFind(name, '.');
    if 0 < i < |name| - 1 then name[i..] else ""
  }

  /** The converse of `Suffix`'s contract: a dot that is neither first nor last,
      with no dot after it, starts the suffix. */
  lemma SuffixAt(name: string, p: nat)
    requires 0 < p < |name| - 1 && name[p] == '.'
    requires forall j :: p < j < |name| ==> name[j] != '.'
    ensures Suffix(name) == name[p..]
  {
    assert RFind(name, '.') == p;
  }

  /** A name whose only dot is its first character has no suffix. */
  lemma HiddenNameHasNoSuffix(name: string)
    requires |name| > 0 && name[0] == '.'
    requires forall j :: 0 < j < |name| ==> name[j] != '.'
    ensures Suffix(name) == ""
  {
  }

  /** `audio.parent.name` for a file below the root: the final component of the
      file's path with its last component dropped, the path starting at the root
      directory itself. For a file directly under the root that is the root's own
      name. */
  function ParentName(rootName: string, parts: seq<string>): (r: string)
    requires |parts| >= 1
    ensures r == Name(([rootName] + parts)[..|parts|])
  {
    if |parts| == 1 then rootName else parts[|parts| - 2]
  }

  /** `str(audio.relative_to(root)).replace("\\", "/")`: the components joined by
      the host separator, then every backslash turned into a forward slash. */
  function RelativeKey(host: Host, parts: seq<string>): (k: string)
    ensures '\\' !in k
  {
    ReplaceBackslashes(Join(parts, Separator(host)))
  }

  /** The key does not depend on the host separator: a path listed on Windows and
      the same path listed on a POSIX system give the same key. */
  lemma {:induction false} RelativeKeyHostIndependent(parts: seq<string>)
    ensures RelativeKey(Posix, parts) == RelativeKey(Windows, parts)
    decreases |parts|
  {
    if |parts| > 1 {
      var rest := parts[1..];
      RelativeKeyHostIndependent(rest);
      forall h: Host
        ensures RelativeKey(h, parts) == ReplaceBackslashes(parts[0]) + "/" + RelativeKey(h, rest)
      {
        var sep := Separator(h);
        ReplaceBackslashesAppend(parts[0] + [sep], Join(rest, sep));
        ReplaceBackslashesAppend(parts[0], [sep]);
      }
    }
  }
}

=== FILE: results.dfy ===
/** Failure-carrying wrappers shared by the manifest model. */
module Results {

  /** An optional value: `None` where the source has no value. */
  datatype Option<+T> = None | Some(value: T)

  /** The outcome of an operation that the source aborts by raising an exception. */
  datatype Result<+T, +E> = Ok(value: T) | Err(error: E) {

    predicate IsFailure() {
      Err?
    }

    function PropagateFailure<U>(): Result<U, E>
      requires Err?
    {
      Err(error)
    }

    function Extract(): T
      requires Ok?
    {
      value
    }
  }
}

=== FILE: split_tables.dfy ===
/** `read_split_tables`: the three split tables folded, in the order train, val,
    test, into one lookup from a normalised path key to (split, rating). */
module SplitTables {
  import opened Results
  import opened Text

  /** The three partitions, each with its own table `<name>.csv` in the split directory. */
  datatype Split = Train | Val | Test

  /** The name the manifest writes for a split (and the stem of its table's file name). */
  function SplitName(s: Split): (name: string)
    ensures name in {"train", "val", "test"}
  {
    match s
    case Train => "train"
    case Val => "val"
    case Test => "test"
  }

  /** The splits, in the order their tables are read. */
  const Splits: seq<Split> := [Train, Val, Test]

  /** What the lookup holds for one key: the split that named it last and its rating. */
  datatype Entry = Entry(split: Split, rating: real)

  type SplitMap = map<string, Entry>

  /** A data row as the CSV reader hands it over: the `stimuli` text and the
      `mos` text already passed through `float()`, `None` where that fails. */
  datatype Row = Row(stimuli: string, mos: Option<real>)

  /** A split table: its header (`None` for an empty file, whose reader has no
      field names) and its data rows. */
  datatype Table = Table(fieldnames: Option<seq<string>>, rows: seq<Row>)

  /** The split directory as the reader sees it: the table of each split whose
      file exists; a split that is not a key has no file. */
  type SplitDir = map<Split, Table>

  /** Why the read aborts, naming the split whose table caused it. */
  datatype ReadError =
    | MissingTable(split: Split)         // the table file does not exist
    | NoHeader(split: Split)             // the table file is empty
    | MissingColumns(split: Split)       // the header lacks `stimuli` or `mos`
    | BadRating(split: Split, row: nat)  // `mos` of that data row is not a number

  /** One assignment `mapping[key] = entry` of the merge. */
  datatype Binding = Binding(key: string, entry: Entry)

  /** A key as the lookup stores it: no backslash, no whitespace at either end. */
  predicate IsNormalKey(k: string) {
    '\\' !in k && NoEdgeSpace(k)
  }

  /** The lookup key of a `stimuli` cell: stripped, then backslashes turned into
      forward slashes. */
  function TableKey(stimuli: string): (k: string)
    ensures IsNormalKey(k)
    ensures |k| <= |stimuli|
  {
    var t := Strip(stimuli);
    ReplaceBackslashesKeepsEdges(t);
    ReplaceBackslashes(t)
  }

  /** Normalising a normalised key changes nothing. */
  lemma TableKeyIdempotent(s: string)
    ensures TableKey(TableKey(s)) == TableKey(s)
  {
    var k := TableKey(s);
    StripKeepsEdgeFree(k);
    ReplaceBackslashesIdempotent(Strip(s));
  }

  predicate KeysNormal(m: SplitMap) {
    forall k :: k in m ==> IsNormalKey(k)
  }

  /** The header check: both `stimuli` and `mos` are among the column names, so
      the header has at least two of them. */
  predicate HasColumns(fields: seq<string>): (b: bool)
    ensures b ==> |fields| >= 2
  {
    "stimuli" in fields && "mos" in fields
  }

  /** One assignment adds at most one key, and a normal key keeps the lookup normal. */
  lemma UpdateSize(m: SplitMap, k: string, e: Entry)
    ensures |m[k := e]| <= |m| + 1
    ensures KeysNormal(m) && IsNormalKey(k) ==> KeysNormal(m[k := e])
  {
    assert m[k := e].Keys == m.Keys + {k};
  }

  /** Every rating of the rows from `lo` up to `hi` parses. */
  predicate ParseBetween(rows: seq<Row>, lo: int, hi: int)
    requires 0 <= lo && hi <= |rows|
  {
    forall j :: lo <= j < hi ==> rows[j].mos.Some?
  }

  lemma ParseBetweenExtend(rows: seq<Row>, i: nat, hi: int)
    requires i < hi <= |rows| && rows[i].mos.Some? && ParseBetween(rows, i + 1, hi)
    ensures ParseBetween(rows, i, hi)
  {
  }

  /** The loop `for row in reader` over the rows from index `i` on: each row
      overwrites the entry of its key, and the first row whose rating does not
      parse aborts the read. */
  function LoadRows(m: SplitMap, split: Split, rows: seq<Row>, i: nat): (r: Result<SplitMap, ReadError>)
    requires i <= |rows|
    ensures r.Ok? ==> |r.value| <= |m| + |rows| - i
    ensures r.Ok? && KeysNormal(m) ==> KeysNormal(r.value)
    ensures r.Err? ==> r.error.BadRating? && r.error.split == split
                       && i <= r.error.row < |rows| && rows[r.error.row].mos.None?
                       && ParseBetween(rows, i, r.error.row)
    decreases |rows| - i
  {
    if i == |rows| then Ok(m)
    else match rows[i].mos
      case None => Err(BadRating(split, i))
      case Some(rating) =>
        var k := TableKey(rows[i].stimuli);
        var e := Entry(split, rating);
        UpdateSize(m, k, e);
        var rest := LoadRows(m[k := e], split, rows, i + 1);
        if rest.Err? then ParseBetweenExtend(rows, i, rest.error.row); rest else rest
  }

  /** Reads the table of `Splits[n]` and then those after it, starting from `m`:
      the existence check, the header check, then the rows. */
  function ReadFrom(dir: SplitDir, m: SplitMap, n: nat): (r: Result<SplitMap, ReadError>)
    requires n <= |Splits|
    ensures r.Ok? ==> |r.value| <= |m| + RowsFrom(dir, n)
    ensures r.Ok? && KeysNormal(m) ==> KeysNormal(r.value)
    decreases |Splits| - n
  {
    if n == |Splits| then Ok(m)
    else
      var split := Splits[n];
      if split !in dir then Err(MissingTable(split))
      else match dir[split].fieldnames
        case None => Err(NoHeader(split))
        case Some(fields) =>
          if !HasColumns(fields) then Err(MissingColumns(split))
          else
            var m' :- LoadRows(m, split, dir[split].rows, 0);
            ReadFrom(dir, m', n + 1)
  }

  /** The number of data rows in the tables of `Splits[n..]` that exist. */
  function RowsFrom(dir: SplitDir, n: nat): nat
    requires n <= |Splits|
    decreases |Splits| - n
  {
    if n == |Splits| then 0
    else (if Splits[n] in dir then |dir[Splits[n]].rows| else 0) + RowsFrom(dir, n + 1)
  }

  /** `read_split_tables`: the lookup, or the first reason the read aborts. The
      lookup has at most one key per data row, and its keys are normalised. */
  function ReadSplitTables(dir: SplitDir): (r: Result<SplitMap, ReadError>)
    ensures r.Ok? ==> |r.value| <= RowsFrom(dir, 0)
    ensures r.Ok? ==> forall k :: k in r.value ==> IsNormalKey(k)
  {
    ReadFrom(dir, map[], 0)
  }

  // ---------------------------------------------------------------------------
  // Reference definitions: when a table is acceptable, and what the merge means.
  // ---------------------------------------------------------------------------

  predicate RatingsParse(rows: seq<Row>) {
    forall j :: 0 <= j < |rows| ==> rows[j].mos.Some?
  }

  /** Every rating of a table parses exactly when every rating from its first row
      to its last does: the whole-table check is the row range check over all rows. */
  lemma RatingsParseIsWholeRange(rows: seq<Row>)
    ensures RatingsParse(rows) <==> ParseBetween(rows, 0, |rows|)
  {
  }

  /** The table of `split` exists, has a header naming both columns, and every
      rating in it parses. */
  predicate TableAccepted(dir: SplitDir, split: Split) {
    && split in dir
    && dir[split].fieldnames.Some?
    && HasColumns(dir[split].fieldnames.value)
    && RatingsParse(dir[split].rows)
  }

  predicate AllAccepted(dir: SplitDir) {
    TableAccepted(dir, Train) && TableAccepted(dir, Val) && TableAccepted(dir, Test)
  }

  predicate AcceptedFrom(dir: SplitDir, n: nat) {
    forall l :: n <= l < |Splits| ==> TableAccepted(dir, Splits[l])
  }

  /** The assignments a table performs, in row order. */
  function Bindings(split: Split, rows: seq<Row>): (bs: seq<Binding>)
    requires RatingsParse(rows)
    ensures |bs| == |rows|
    ensures forall j :: 0 <= j < |rows| ==>
              bs[j] == Binding(TableKey(rows[j].stimuli), Entry(split, rows[j].mos.value))
  {
    if |rows| == 0 then []
    else [Binding(TableKey(rows[0].stimuli), Entry(split, rows[0].mos.value))]
         + Bindings(split, rows[1..])
  }

  /** The assignments of the tables of `Splits[n..]`, in order; from 0 that is the
      train rows, then the val rows, then the test rows. */
  function BindingsFrom(dir: SplitDir, n: nat): seq<Binding>
    requires n <= |Splits|
    requires AcceptedFrom(dir, n)
    decreases |Splits| - n
  {
    if n == |Splits| then []
    else
      assert TableAccepted(dir, Splits[n]);
      Bindings(Splits[n], dir[Splits[n]].rows) + BindingsFrom(dir, n + 1)
  }

  /** All assignments of a read whose tables are all acceptable. */
  function AllBindings(dir: SplitDir): (bs: seq<Binding>)
    requires AllAccepted(dir)
    ensures bs == Bindings(Train, dir[Train].rows) + Bindings(Val, dir[Val].rows)
                  + Bindings(Test, dir[Test].rows)
  {
    assert AcceptedFrom(dir, 0);
    var bs := BindingsFrom(dir, 0);
    assert BindingsFrom(dir, 3) == [];
    assert BindingsFrom(dir, 2) == Bindings(Test, dir[Test].rows);
    bs
  }

  /** Performs the assignments one after the other. */
  function Assign(m: SplitMap, bs: seq<Binding>): SplitMap
    decreases |bs|
  {
    if |bs| == 0 then m else Assign(m[bs[0].key := bs[0].entry], bs[1..])
  }

  /** `i` is the last position at which key `k` is assigned. */
  predicate IsLast(bs: seq<Binding>, k: string, i: int) {
    0 <= i < |bs| && bs[i].key == k && forall j :: i < j < |bs| ==> bs[j].key != k
  }

  lemma {:induction false} AssignAppend(m: SplitMap, a: seq<Binding>, b: seq<Binding>)
    ensures Assign(m, a + b) == Assign(Assign(m, a), b)
    decreases |a|
  {
    if |a| > 0 {
      assert (a + b)[0] == a[0];
      assert (a + b)[1..] == a[1..] + b;
      AssignAppend(m[a[0].key := a[0].entry], a[1..], b);
    } else {
      assert a + b == b;
    }
  }

  /** Last write wins: after the assignments, a key is present exactly when it was
      present before or is assigned, and its entry is the one of its last
      assignment, or the earlier entry when it is never assigned. */
  lemma {:induction false} AssignLastWriteWins(m: SplitMap, bs: seq<Binding>)
    ensures forall k :: k in Assign(m, bs) <==> k in m || exists i :: 0 <= i < |bs| && bs[i].key == k
    ensures forall k, i :: IsLast(bs, k, i) ==> Assign(m, bs)[k] == bs[i].entry
    ensures forall k :: k in m && (forall i :: 0 <= i < |bs| ==> bs[i].key != k) ==> Assign(m, bs)[k] == m[k]
    decreases |bs|
  {
    if |bs| > 0 {
      var m' := m[bs[0].key := bs[0].entry];
      var rest := bs[1..];
      AssignLastWriteWins(m', rest);
      var r := Assign(m, bs);
      assert r == Assign(m', rest);
      forall k | k in r
        ensures k in m || exists i :: 0 <= i < |bs| && bs[i].key == k
      {
        if k !in m' {
          var i :| 0 <= i < |rest| && rest[i].key == k;
          assert bs[i + 1].key == k;
        } else if k !in m {
          assert bs[0].key == k;
        }
      }
      forall k | exists i :: 0 <= i < |bs| && bs[i].key == k
        ensures k in r
      {
        var i :| 0 <= i < |bs| && bs[i].key == k;
        if i > 0 {
          assert rest[i - 1].key == k;
        }
      }
      forall k, i | IsLast(bs, k, i)
        ensures r[k] == bs[i].entry
      {
        if i > 0 {
          assert IsLast(rest, k, i - 1);
        } else {
          assert forall j :: 0 <= j < |rest| ==> rest[j].key != k by {
            forall j | 0 <= j < |rest| ensures rest[j].key != k {
              assert bs[j + 1] == rest[j];
            }
          }
        }
      }
      forall k | k in m && (forall i :: 0 <= i < |bs| ==> bs[i].key != k)
        ensures r[k] == m[k]
      {
        assert bs[0].key != k;
        assert forall j :: 0 <= j < |rest| ==> rest[j].key != k by {
          forall j | 0 <= j < |rest| ensures rest[j].key != k {
            assert bs[j + 1] == rest[j];
          }
        }
      }
    }
  }

  /** One table's rows perform exactly that table's assignments, and succeed
      exactly when all ratings parse. */
  lemma {:induction false} LoadRowsIsAssign(m: SplitMap, split: Split, rows: seq<Row>, i: nat)
    requires i <= |rows|
    ensures LoadRows(m, split, rows, i).Ok? <==> RatingsParse(rows[i..])
    ensures RatingsParse(rows[i..]) ==>
              LoadRows(m, split, rows, i) == Ok(Assign(m, Bindings(split, rows[i..])))
    decreases |rows| - i
  {
    if i < |rows| {
      RatingsParseCons(rows, i);
      if rows[i].mos.Some? {
        var k := TableKey(rows[i].stimuli);
        var m' := m[k := Entry(split, rows[i].mos.value)];
        LoadRowsIsAssign(m', split, rows, i + 1);
        if RatingsParse(rows[i + 1..]) {
          BindingsCons(split, rows, i);
        }
      }
    }
  }

  /** The ratings from `i` on parse exactly when row `i`'s does and those after it do. */
  lemma RatingsParseCons(rows: seq<Row>, i: nat)
    requires i < |rows|
    ensures RatingsParse(rows[i..]) <==> rows[i].mos.Some? && RatingsParse(rows[i + 1..])
  {
    assert forall j :: 0 < j < |rows[i..]| ==> rows[i..][j] == rows[i + 1..][j - 1];
    if rows[i].mos.Some? && RatingsParse(rows[i + 1..]) {
      forall j | 0 <= j < |rows[i..]| ensures rows[i..][j].mos.Some? {
        if j > 0 { assert rows[i..][j] == rows[i + 1..][j - 1]; }
      }
    } else if rows[i].mos.Some? {
      var j :| 0 <= j < |rows[i + 1..]| && rows[i + 1..][j].mos.None?;
      assert rows[i..][j + 1].mos.None?;
    } else {
      assert rows[i..][0].mos.None?;
    }
  }

  /** The assignments from row `i` on are row `i`'s followed by those after it. */
  lemma BindingsCons(split: Split, rows: seq<Row>, i: nat)
    requires i < |rows| && RatingsParse(rows[i..])
    ensures RatingsParse(rows[i + 1..])
    ensures Bindings(split, rows[i..])
            == [Binding(TableKey(rows[i].stimuli), Entry(split, rows[i].mos.value))]
               + Bindings(split, rows[i + 1..])
  {
    RatingsParseCons(rows, i);
    assert rows[i..][1..] == rows[i + 1..];
  }

  /** A read error describes a real fault of the table it names: the file is
      missing, empty, lacks a column, or has a row whose rating does not parse
      while every row before it does. */
  predicate Describes(dir: SplitDir, e: ReadError) {
    match e
    case MissingTable(s) => s !in dir
    case NoHeader(s) => s in dir && dir[s].fieldnames.None?
    case MissingColumns(s) =>
      s in dir && dir[s].fieldnames.Some? && !HasColumns(dir[s].fieldnames.value)
    case BadRating(s, i) =>
      && s in dir && dir[s].fieldnames.Some? && HasColumns(dir[s].fieldnames.value)
      && i < |dir[s].rows| && dir[s].rows[i].mos.None?
      && forall j :: 0 <= j < i ==> dir[s].rows[j].mos.Some?
  }

  /** An acceptable table performs its assignments and hands on to the next one. */
  lemma ReadFromAccepted(dir: SplitDir, m: SplitMap, n: nat)
    requires n < |Splits| && TableAccepted(dir, Splits[n])
    ensures ReadFrom(dir, m, n) == ReadFrom(dir, Assign(m, Bindings(Splits[n], dir[Splits[n]].rows)), n + 1)
  {
    var rows := dir[Splits[n]].rows;
    assert rows[0..] == rows;
    LoadRowsIsAssign(m, Splits[n], rows, 0);
  }

  /** An unacceptable table aborts the read with a fault of that table. */
  lemma ReadFromRejected(dir: SplitDir, m: SplitMap, n: nat)
    requires n < |Splits| && !TableAccepted(dir, Splits[n])
    ensures ReadFrom(dir, m, n).Err?
    ensures ReadFrom(dir, m, n).error.split == Splits[n]
    ensures Describes(dir, ReadFrom(dir, m, n).error)
  {
    var split := Splits[n];
    if split in dir && dir[split].fieldnames.Some? && HasColumns(dir[split].fieldnames.value) {
      var rows := dir[split].rows;
      assert rows[0..] == rows;
      LoadRowsIsAssign(m, split, rows, 0);
    }
  }

  /** The read from `Splits[n]` on succeeds exactly when each of those tables is
      acceptable, and it then performs their assignments in order. */
  lemma {:induction false} ReadFromIsAssign(dir: SplitDir, m: SplitMap, n: nat)
    requires n <= |Splits|
    ensures ReadFrom(dir, m, n).Ok? <==> AcceptedFrom(dir, n)
    ensures AcceptedFrom(dir, n) ==> ReadFrom(dir, m, n) == Ok(Assign(m, BindingsFrom(dir, n)))
    decreases |Splits| - n
  {
    if n < |Splits| {
      if TableAccepted(dir, Splits[n]) {
        var bs := Bindings(Splits[n], dir[Splits[n]].rows);
        ReadFromAccepted(dir, m, n);
        ReadFromIsAssign(dir, Assign(m, bs), n + 1);
        if AcceptedFrom(dir, n + 1) {
          AssignAppend(m, bs, BindingsFrom(dir, n + 1));
        }
      } else {
        ReadFromRejected(dir, m, n);
      }
    }
  }

  /** A fault that is the first after position `n`, when the table at `n` is
      acceptable, is the first from `n` on. */
  lemma FirstFaultAfter(dir: SplitDir, n: nat, j: nat, e: ReadError)
    requires n < |Splits| && TableAccepted(dir, Splits[n])
    requires n + 1 <= j < |Splits| && Splits[j] == e.split
    requires !TableAccepted(dir, Splits[j]) && Describes(dir, e)
    requires forall l :: n + 1 <= l < j ==> TableAccepted(dir, Splits[l])
    ensures n <= j < |Splits| && Splits[j] == e.split
    ensures !TableAccepted(dir, Splits[j]) && Describes(dir, e)
    ensures forall l :: n <= l < j ==> TableAccepted(dir, Splits[l])
  {
  }

  /** After an acceptable table the read goes on from some lookup `m'`. */
  lemma ReadFromNext(dir: SplitDir, m: SplitMap, n: nat) returns (m': SplitMap)
    requires n < |Splits| && TableAccepted(dir, Splits[n])
    ensures ReadFrom(dir, m, n) == ReadFrom(dir, m', n + 1)
  {
    m' := Assign(m, Bindings(Splits[n], dir[Splits[n]].rows));
    ReadFromAccepted(dir, m, n);
  }

  /** Once every table is read, the lookup is handed back as it is. */
  lemma ReadFromEnd(dir: SplitDir, m: SplitMap)
    ensures ReadFrom(dir, m, |Splits|) == Ok(m)
  {
  }

  /** The tables are read in order and the first unacceptable one aborts the read,
      with a fault of that table: `j` is its position. */
  lemma {:induction false} ReadFromFailsFirst(dir: SplitDir, m: SplitMap, n: nat) returns (j: nat)
    requires n <= |Splits| && ReadFrom(dir, m, n).Err?
    ensures n <= j < |Splits| && Splits[j] == ReadFrom(dir, m, n).error.split
    ensures !TableAccepted(dir, Splits[j]) && Describes(dir, ReadFrom(dir, m, n).error)
    ensures forall l :: n <= l < j ==> TableAccepted(dir, Splits[l])
    decreases |Splits| - n
  {
    ReadFromEnd(dir, m);
    assert n < |Splits|;
    if TableAccepted(dir, Splits[n]) {
      var m' := ReadFromNext(dir, m, n);
      j := ReadFromFailsFirst(dir, m', n + 1);
      FirstFaultAfter(dir, n, j, ReadFrom(dir, m', n + 1).error);
    } else {
      ReadFromRejected(dir, m, n);
      j := n;
    }
  }

  /** The whole read succeeds exactly when all three tables are acceptable, and its
      lookup is then the assignments of all rows, train then val then test,
      performed in order on an empty lookup. */
  lemma ReadIsAssign(dir: SplitDir)
    ensures ReadSplitTables(dir).Ok? <==> AllAccepted(dir)
    ensures AllAccepted(dir) ==> ReadSplitTables(dir) == Ok(Assign(map[], AllBindings(dir)))
  {
    ReadFromIsAssign(dir, map[], 0);
    assert AllAccepted(dir) <==> AcceptedFrom(dir, 0) by {
      assert Splits[0] == Train && Splits[1] == Val && Splits[2] == Test;
    }
    if AllAccepted(dir) {
      var _ := AllBindings(dir);
    }
  }

  /** A failed read names the first unacceptable table in the order train, val,
      test, and describes a real fault of it; every table before it is acceptable.
      `j` is that table's position in the order. */
  lemma ReadFailsAtFirstFault(dir: SplitDir) returns (j: nat)
    requires ReadSplitTables(dir).Err?
    ensures j < |Splits| && Splits[j] == ReadSplitTables(dir).error.split
    ensures !TableAccepted(dir, Splits[j]) && Describes(dir, ReadSplitTables(dir).error)
    ensures forall l :: 0 <= l < j ==> TableAccepted(dir, Splits[l])
  {
    j := ReadFromFailsFirst(dir, map[], 0);
  }

  /** Whatever error a read returns describes a real fault of the table it names. */
  lemma ReadErrorDescribes(dir: SplitDir)
    ensures ReadSplitTables(dir).Err? ==> Describes(dir, ReadSplitTables(dir).error)
  {
    if ReadSplitTables(dir).Err? {
      var _ := ReadFailsAtFirstFault(dir);
    }
  }

  /** A missing train table aborts the read with that fault, whatever the other
      tables hold. */
  lemma MissingTrainAborts(dir: SplitDir)
    requires Train !in dir
    ensures ReadSplitTables(dir) == Err(MissingTable(Train))
  {
  }

  /** Last write wins over the whole read: the lookup's keys are exactly the
      normalised `stimuli` of all rows, and each key's entry is the split and
      rating of its last row in the order train rows, val rows, test rows. */
  lemma ReadLastWriteWins(dir: SplitDir)
    requires AllAccepted(dir)
    ensures ReadSplitTables(dir).Ok?
    ensures var m, bs := ReadSplitTables(dir).value, AllBindings(dir);
            && (forall k :: k in m <==> exists i :: 0 <= i < |bs| && bs[i].key == k)
            && (forall k, i :: IsLast(bs, k, i) ==> m[k] == bs[i].entry)
  {
    ReadIsAssign(dir);
    AssignLastWriteWins(map[], AllBindings(dir));
  }

  /** Each entry of the lookup comes from a row of the table of its own split
      whose `stimuli` normalises to the entry's key and whose rating is the
      entry's rating. */
  lemma EntryComesFromItsTable(dir: SplitDir, k: string)
    requires ReadSplitTables(dir).Ok? && k in ReadSplitTables(dir).value
    ensures var e := ReadSplitTables(dir).value[k];
            && e.split in dir
            && exists j :: 0 <= j < |dir[e.split].rows|
                 && TableKey(dir[e.split].rows[j].stimuli) == k
                 && dir[e.split].rows[j].mos == Some(e.rating)
  {
    ReadIsAssign(dir);
    var bs := AllBindings(dir);
    var m := ReadSplitTables(dir).value;
    assert m == Assign(map[], bs);
    AssignLastWriteWins(map[], bs);
    var i := LastIndex(bs, k);
    assert m[k] == bs[i].entry;
    var s, j := BindingOrigin(dir, i);
    assert TableKey(dir[s].rows[j].stimuli) == k;
  }

  /** Each assignment of the read comes from a row of the table of its split. */
  lemma BindingOrigin(dir: SplitDir, i: nat) returns (s: Split, j: nat)
    requires AllAccepted(dir) && i < |AllBindings(dir)|
    ensures var b := AllBindings(dir)[i];
            && s == b.entry.split && s in dir && j < |dir[s].rows|
            && b.key == TableKey(dir[s].rows[j].stimuli)
            && dir[s].rows[j].mos == Some(b.entry.rating)
  {
    var a, b, c := Bindings(Train, dir[Train].rows), Bindings(Val, dir[Val].rows), Bindings(Test, dir[Test].rows);
    var k;
    k, j := ConcatIndex(a, b, c, i);
    if k == 0 {
      s := Train;
    } else if k == 1 {
      s := Val;
    } else {
      s := Test;
    }
    assert [a, b, c][k] == Bindings(s, dir[s].rows);
    BindingInTable(dir, s, j);
  }

  /** A position in `x + y + z` falls in one of the three parts, at offset `j`. */
  lemma ConcatIndex<T>(x: seq<T>, y: seq<T>, z: seq<T>, i: nat) returns (k: nat, j: nat)
    requires i < |x + y + z|
    ensures k < 3 && j < |[x, y, z][k]| && (x + y + z)[i] == [x, y, z][k][j]
  {
    if i < |x| {
      k, j := 0, i;
    } else if i < |x| + |y| {
      k, j := 1, i - |x|;
    } else {
      k, j := 2, i - |x| - |y|;
    }
  }

  /** The `j`-th assignment of a split's table comes from its `j`-th row. */
  lemma BindingInTable(dir: SplitDir, s: Split, j: nat)
    requires TableAccepted(dir, s) && j < |Bindings(s, dir[s].rows)|
    ensures var b := Bindings(s, dir[s].rows)[j];
            && s == b.entry.split && j < |dir[s].rows|
            && b.key == TableKey(dir[s].rows[j].stimuli)
            && dir[s].rows[j].mos == Some(b.entry.rating)
  {
  }

  /** The last position at which `k` is assigned, for a key that is assigned. */
  lemma LastIndex(bs: seq<Binding>, k: string) returns (i: nat)
    requires exists j :: 0 <= j < |bs| && bs[j].key == k
    ensures IsLast(bs, k, i)
  {
    var j :| 0 <= j < |bs| && bs[j].key == k;
    i := j;
    while i + 1 < |bs| && exists l :: i < l < |bs| && bs[l].key == k
      invariant j <= i < |bs| && bs[i].key == k
      decreases |bs| - i
    {
      var l :| i < l < |bs| && bs[l].key == k;
      i := l;
    }
  }

  /** The worked example's tables: the train table holds the single row
      `a/1.wav,4.5`, the val and test tables hold no rows, and all three have the
      `stimuli` and `mos` columns. The lookup maps "a/1.wav" to train, 4.5. */
  lemma ExampleRead(dir: SplitDir)
    requires AllAccepted(dir)
    requires dir[Train].rows == [Row("a/1.wav", Some(4.5))]
    requires dir[Val].rows == [] && dir[Test].rows == []
    ensures ReadSplitTables(dir) == Ok(map["a/1.wav" := Entry(Train, 4.5)])
  {
    var b := Binding("a/1.wav", Entry(Train, 4.5));
    ExampleKey();
    assert Bindings(Train, dir[Train].rows) == [b];
    assert AllBindings(dir) == [b];
    ReadIsAssign(dir);
    assert [b][1..] == [];
    assert Assign(map[], [b]) == Assign(map[b.key := b.entry], []);
  }

  /** "a/1.wav" is already a normalised key. */
  lemma ExampleKey()
    ensures TableKey("a/1.wav") == "a/1.wav"
  {
    var s := "a/1.wav";
    assert !IsSpace(s[0]) && !IsSpace(s[|s| - 1]);
    assert TrimStart(s) == s;
    assert TrimEnd(s) == s;
    var r := ReplaceBackslashes(s);
    assert forall i :: 0 <= i < |s| ==> s[i] != '\\';
    assert r == s;
  }
}

=== FILE: text.dfy ===
/** The string operations the manifest builder relies on: Python's `str.strip()`,
    `str.replace("\\", "/")`, `str.lower()` and joining path components. */
module Text {

  /** Python's `str.isspace()`: the characters `str.strip()` removes when called
      without arguments, listed by code point. */
  predicate IsSpace(c: char) {
    var n := c as int;
    || n == 0x20 || 0x09 <= n <= 0x0D || 0x1C <= n <= 0x1F
    || n == 0x85 || n == 0xA0 || n == 0x1680 || 0x2000 <= n <= 0x200A
    || n == 0x2028 || n == 0x2029 || n == 0x202F || n == 0x205F || n == 0x3000
  }

  predicate AllSpace(s: string) {
    forall i :: 0 <= i < |s| ==> IsSpace(s[i])
  }

  /** Neither the first nor the last character is whitespace. */
  predicate NoEdgeSpace(s: string) {
    |s| == 0 || (!IsSpace(s[0]) && !IsSpace(s[|s| - 1]))
  }

  /** Drops leading whitespace: the result is a suffix of `s`, what was dropped
      is whitespace, and what is left does not start with whitespace. */
  function TrimStart(s: string): (r: string)
    ensures |r| <= |s| && r == s[|s| - |r|..]
    ensures AllSpace(s[..|s| - |r|])
    ensures |r| > 0 ==> !IsSpace(r[0])
  {
    if |s| > 0 && IsSpace(s[0]) then TrimStart(s[1..]) else s
  }

  /** Drops trailing whitespace: the result is a prefix of `s`, what was dropped
      is whitespace, and what is left does not end with whitespace. */
  function TrimEnd(s: string): (r: string)
    ensures |r| <= |s| && r == s[..|r|]
    ensures AllSpace(s[|r|..])
    ensures |r| > 0 ==> !IsSpace(r[|r| - 1])
  {
    if |s| > 0 && IsSpace(s[|s| - 1]) then TrimEnd(s[..|s| - 1]) else s
  }

  /** Python's `str.strip()` with no argument. */
  function Strip(s: string): (r: string)
    ensures NoEdgeSpace(r)
    ensures |r| <= |s|
  {
    TrimEnd(TrimStart(s))
  }

  /** `Strip` removes only whitespace, and only at the two ends. */
  lemma StripRemovesOnlyEdgeSpace(s: string)
    ensures exists lo: nat, hi: nat ::
              lo <= hi <= |s| && Strip(s) == s[lo..hi]
              && AllSpace(s[..lo]) && AllSpace(s[hi..])
  {
    var t := TrimStart(s);
    var u := TrimEnd(t);
    var lo: nat := |s| - |t|;
    var hi: nat := lo + |u|;
    assert Strip(s) == s[lo..hi] by {
      assert u == t[..|u|];
      assert t == s[lo..];
    }
    assert AllSpace(s[hi..]) by {
      assert s[hi..] == t[|u|..];
    }
    assert lo <= hi <= |s| && Strip(s) == s[lo..hi] && AllSpace(s[..lo]) && AllSpace(s[hi..]);
  }

  /** A string without edge whitespace is left alone by `Strip`. */
  lemma StripKeepsEdgeFree(s: string)
    requires NoEdgeSpace(s)
    ensures Strip(s) == s
  {
  }

  lemma StripIdempotent(s: string)
    ensures Strip(Strip(s)) == Strip(s)
  {
    StripKeepsEdgeFree(Strip(s));
  }

  /** Python's `s.replace("\\", "/")`: every backslash becomes a forward slash,
      every other character is kept in place. */
  function ReplaceBackslashes(s: string): (r: string)
    ensures |r| == |s|
    ensures '\\' !in r
    ensures forall i :: 0 <= i < |s| && s[i] != '\\' ==> r[i] == s[i]
    ensures forall i :: 0 <= i < |s| && s[i] == '\\' ==> r[i] == '/'
  {
    if |s| == 0 then ""
    else [if s[0] == '\\' then '/' else s[0]] + ReplaceBackslashes(s[1..])
  }

  lemma ReplaceBackslashesIdempotent(s: string)
    ensures ReplaceBackslashes(ReplaceBackslashes(s)) == ReplaceBackslashes(s)
  {
  }

  /** A text without backslashes is left as it is. */
  lemma ReplaceBackslashesNoop(s: string)
    requires '\\' !in s
    ensures ReplaceBackslashes(s) == s
  {
    assert forall i :: 0 <= i < |s| ==> s[i] != '\\';
  }

  /** Replacing distributes over concatenation. */
  lemma ReplaceBackslashesAppend(a: string, b: string)
    ensures ReplaceBackslashes(a + b) == ReplaceBackslashes(a) + ReplaceBackslashes(b)
  {
  }

  /** Replacing neither adds nor removes whitespace at the two ends. */
  lemma ReplaceBackslashesKeepsEdges(s: string)
    ensures NoEdgeSpace(ReplaceBackslashes(s)) <==> NoEdgeSpace(s)
  {
    var r := ReplaceBackslashes(s);
    if |s| > 0 {
      assert IsSpace(r[0]) <==> IsSpace(s[0]);
      assert IsSpace(r[|s| - 1]) <==> IsSpace(s[|s| - 1]);
    }
  }

  /** Lower-cases one character: no upper-case ASCII letter is left, letters stay
      letters, the dot is neither made nor lost, and a character that is not an
      upper-case letter (a digit, say) is kept. */
  function LowerChar(c: char): (d: char)
    ensures !('A' <= d <= 'Z')
    ensures 'a' <= d <= 'z' <==> 'a' <= c <= 'z' || 'A' <= c <= 'Z'
    ensures d == '.' <==> c == '.'
    ensures !('A' <= c <= 'Z') ==> d == c
  {
    if 'A' <= c <= 'Z' then (c as int + 32) as char else c
  }

  /** Lower-casing a lower-cased character changes nothing. */
  lemma LowerCharIdempotent(c: char)
    ensures LowerChar(LowerChar(c)) == LowerChar(c)
  {
  }

  /** Each upper-case ASCII letter lowers to its lower-case partner, which is
      itself left alone: the two are the same letter up to case. */
  lemma LowerCharFoldsCase(c: char)
    requires 'a' <= c <= 'z'
    ensures LowerChar((c as int - 32) as char) == c
    ensures LowerChar(c) == c
  {
  }

  /** Lower-casing a lower-cased text changes nothing. */
  lemma LowerIdempotent(s: string)
    ensures Lower(Lower(s)) == Lower(s)
  {
    forall i | 0 <= i < |s| ensures Lower(Lower(s))[i] == Lower(s)[i] {
      LowerCharIdempotent(s[i]);
    }
  }

  /** `str.lower()` restricted to the ASCII letters (see README for why this is
      exact for membership in the audio extension set). */
  function Lower(s: string): (r: string)
    ensures |r| == |s|
    ensures forall i :: 0 <= i < |s| ==> r[i] == LowerChar(s[i])
  {
    if |s| == 0 then "" else [LowerChar(s[0])] + Lower(s[1..])
  }

  /** `str(PurePath(*parts))`: the components joined by the host separator; the
      empty path prints as ".". */
  function Join(parts: seq<string>, sep: char): string
  {
    if |parts| == 0 then "."
    else if |parts| == 1 then parts[0]
    else parts[0] + [sep] + Join(parts[1..], sep)
  }

  /** A joined path starts with its first component and ends with its last. */
  lemma {:induction false} JoinEnds(parts: seq<string>, sep: char)
    requires |parts| >= 1
    ensures parts[0] <= Join(parts, sep)
    ensures |parts[|parts| - 1]| <= |Join(parts, sep)|
    ensures Join(parts, sep)[|Join(parts, sep)| - |parts[|parts| - 1]|..] == parts[|parts| - 1]
    decreases |parts|
  {
    if |parts| > 1 {
      var rest := parts[1..];
      JoinEnds(rest, sep);
      var j := Join(parts, sep);
      var t := Join(rest, sep);
      assert j == parts[0] + [sep] + t;
      assert rest[|rest| - 1] == parts[|parts| - 1];
      assert j[..|parts[0]|] == parts[0];
      assert j[|j| - |t|..] == t;
    }
  }
}
